=== FILE: README.md ===
# gopenai-api client decisions, modelled in Dafny

This project models the decisions the Go client `gopenai-api` makes around each HTTP round trip to the
OpenAI REST API. It does not model the HTTP traffic itself. The decisions are:

- which inputs are rejected before anything is sent (`Validate` / `validate` of each operation);
- how the base URL is chosen and which credential headers are attached (`endpoint`, `setToken`);
- how each operation maps a response (status code, raw body, outcome of decoding the body) to the
  `(*Output, error)` pair it returns;
- how `ParseArguments` finds a named function call among the choices of a chat-completions
  response and decodes its arguments;
- the multipart form the transcription operation uploads.

Everything the client delegates to a library is a parameter, so the model captures only the client's
own control logic. Those libraries are `encoding/json`, `net/url`, `http.NewRequest`, `http.Client.Do`,
reading the audio file, `filepath.Base` and `fmt.Sprint` of a float32. A `Transport` value bundles the
URL parser, the request-construction failure, the round trip and the JSON decoder. A `FormEnv` value
bundles the file reader, the base-name function, the float formatter and the multipart Content-Type.

Every operation is a total function returning a `Call`. A `Call` is either `Returned(sent, reply)` or
`Panicked`. `sent` is the request handed to the transport, or `None` when the operation returned
before dispatch. `reply` is the `(output, error)` pair.

Modules, one per source file or shared concept:

| module | models |
|---|---|
| `Prelude` | Go nil-able values (`Option`), library outcomes (`Result`), opaque forwarded values |
| `Errors` | the sentinels and `Error` record of `api/error.go`, errors built with `errors.New`, `xerrors.New` and `xerrors.Errorf(... %w)`, and `errors.Is` |
| `Http` | requests, responses, replies, calls, and the `Transport` parameters |
| `Client` | `api/api.go`: `New`, `endpoint`, `setToken` |
| `Taxonomy` | one reference status classification, with the four points where operations disagree as a `Policy` |
| `ChatCompletions`, `ArgumentResolver` | `api/v1_chat_completions.go` |
| `ChatLegacy` | `api/v1_chat.go` (it declares the same Go identifiers, so it is a separate module) |
| `Transcriptions`, `Images`, `ListFile`, `Models` | the remaining operation files |
| `Comparison` | the operations' classifications of the same response, side by side |

The operations disagree with each other, and the model keeps every disagreement as written:

- Images returns a nil error for any status other than 200 and 401.
- Transcription returns `(nil, nil)` for a 200, which drops the decoded transcript.
- Only chat completions with function calling and file listing have a 502 branch. Only they wrap
  `Unknown` together with the status code.
- Both chat operations, file listing and model listing ignore the error from `setToken` and send the
  request without credentials. Images and transcription abort with that error.
- Both chat operations write a header into the request before checking the `http.NewRequest` error.
  A failed construction therefore dereferences a nil request, which the model records as `Panicked`.
  This is the only panic the model covers. Nil pointers are outside the model's types; see "Left out".

The code does not have the following behaviours, and the model does not add them:

- a tool-calls fallback in the argument resolver;
- a `response_format` whitelist for transcription;
- verbose transcription segments;
- credential headers added one at a time, each only when configured (the code requires both or adds
  none);
- a 502 branch on every operation;
- response bodies drained on every path.

## Model

| member | source | states |
|---|---|---|
| `Client.New` | api/api.go:17-23 | the client keeps the configuration it is given |
| `Client.Endpoint` | api/api.go:25-30 | the parser receives "https://api.openai.com" when no endpoint is configured, and the configured string otherwise |
| `Client.Locate` | api/v1_models.go:50-54 | a URL-parse failure propagates; otherwise the parsed base URL gets the operation's path |
| `Client.SetToken` | api/api.go:32-42 | succeeds iff both API key and organization are set; a missing key gives "no token" before the organization is looked at; a missing organization alone gives "no organization"; a failure adds no header; a success appends exactly two headers and keeps the earlier ones |
| `Client.SetTokenHeaders` | api/api.go:39-40 | after `setToken` the request carries `Authorization: Bearer <key>` and `OpenAI-Organization: <org>` exactly when both are configured, and no other header changes |
| `Client.JsonPostIgnoringToken` | api/v1_chat_completions.go:124-133 | the chat request is a POST with the JSON body and Content-Type application/json; it carries credential headers only when both credentials are configured, and is built either way |
| `Errors.MessageOnly` | api/error.go:8-13 | an error record built from a raw body has that body as its message and zero values elsewhere |
| `Taxonomy.Expected` | api/v1_chat_completions.go:140-172 | reference classification under a policy: an undecodable 200/401 body gives the decode error and no output; the error is Unauthorized iff 401 with a decodable body; BadGateway iff 502 with a 502 branch; Unknown iff another reported status; nil iff a clean 200 or an unreported status |
| `Taxonomy.UnexpectedStatusKeepsBody` | api/v1_list_file.go:62-81 | for every policy, a status other than 200/401 returns the raw body in the output, and any wrapping error reports that body verbatim |
| `ChatCompletions.Validate` | api/v1_chat_completions.go:37-45 | validation passes iff a model is set and at least one message is given; a missing model is reported first |
| `ChatCompletions.Classify` | api/v1_chat_completions.go:140-172 | the error is nil iff a 200 body decodes; Unauthorized iff a 401 body decodes; BadGateway iff 502; Unknown iff any other status; 200/401 output is the decoded body or nothing; other outputs hold only the raw body, and the error reports it |
| `ChatCompletions.ClassifyFollowsPolicy` | api/v1_chat_completions.go:140-172 | the classification is the reference with every branch enabled |
| `ChatCompletions.ChatCompletionsV1` | api/v1_chat_completions.go:110-173 | a validation failure returns `(nil, err)` with nothing sent; an encode or URL-parse failure returns `(nil, err)` carrying the library's error; among non-nil client, configuration and input, it panics exactly when everything before the request succeeds and `http.NewRequest` fails; otherwise the request is dispatched whatever the credentials. The sent request is a POST to the URL `endpoint()` resolved, with the path /v1/chat/completions. It carries the encoded input, and exactly the headers `setToken` leaves on a request holding only `Content-Type: application/json`: `Authorization: Bearer <key>` and `OpenAI-Organization: <org>` exactly when both credentials are set. A transport failure returns `(nil, err)` with the transport's error; otherwise the reply is the classification of the response |
| `ChatCompletions.MissingCredentialIgnored` | api/v1_chat_completions.go:129-137 | once the input validates and encodes, and the URL and request can be built, the request is dispatched whatever the credentials |
| `ArgumentResolver.CallsOf` | api/v1_chat_completions.go:86-88 | the mapped list has one entry per choice: that choice's function call or nil |
| `ArgumentResolver.FunctionCallsSpec` | api/v1_chat_completions.go:86-90 | the filtered calls are exactly the function calls present on some choice, and filtering a concatenation concatenates the filtered parts, so order is kept |
| `ArgumentResolver.FirstNamed` | api/v1_chat_completions.go:92-100 | reference search: nothing iff no choice carries a call with the name; otherwise the call of a choice with that name that no earlier choice has |
| `ArgumentResolver.FirstCallOfFiltered` | api/v1_chat_completions.go:86-100 | scanning the filtered calls in order finds the same call as the reference search over the choices |
| `ArgumentResolver.OnlyCallsMatter` | api/v1_chat_completions.go:86-90 | two responses with the same filtered calls resolve the same; choices without a call and the choices' other fields are not examined |
| `ArgumentResolver.LaterChoicesIgnored` | api/v1_chat_completions.go:92-100 | two responses that agree up to and including a choice naming the function resolve the same, whatever follows that choice, later matches included |
| `ArgumentResolver.Decoded` | api/v1_chat_completions.go:96-98 | a decode failure is returned as that error, a decode success as the decoded value |
| `ArgumentResolver.ParseArguments` | api/v1_chat_completions.go:82-102 | nil choices fail with "choices is nil" wrapping the parse sentinel, whatever the decoder does; otherwise the first matching call's arguments are decoded and the outcome returned as is; no match, including an empty choice list, fails with "not found" naming the function and wrapping the sentinel |
| `ChatLegacy.Validate` | api/v1_chat.go:31-39 | validation passes iff a model is set and at least one message is given; a missing model is reported first |
| `ChatLegacy.Classify` | api/v1_chat.go:105-127 | the error is nil iff a 200 body decodes; Unauthorized iff a 401 body decodes; never BadGateway; every other status, 502 included, gives the raw-body output with the bare Unknown sentinel |
| `ChatLegacy.ClassifyFollowsPolicy` | api/v1_chat.go:105-127 | the classification is the reference without a 502 branch and with bare Unknown |
| `ChatLegacy.ChatCompletionsV1` | api/v1_chat.go:75-130 | as in the newer variant: a validation failure returns before anything is sent; encode and URL-parse failures return `(nil, err)` with the library's error; it panics exactly when `http.NewRequest` fails after those steps succeed; otherwise the request is dispatched whatever the credentials. The sent request is a POST to the URL `endpoint()` resolved, with the path /v1/chat/completions. It carries the encoded input and exactly the headers `setToken` leaves on a request holding only the JSON Content-Type. A transport failure returns `(nil, err)`; otherwise the reply is the classification |
| `ChatLegacy.MissingCredentialIgnored` | api/v1_chat.go:94-102 | a missing credential never prevents dispatch |
| `Transcriptions.Validate` | api/v1_transcriptions.go:32-39 | validation passes iff a file and a model are given; a missing file gives "no file" before the model is looked at; otherwise "no models" |
| `Transcriptions.WriteField` | api/v1_transcriptions.go:15-21 | a nil value writes nothing; a set value appends exactly one field named `fieldName` holding the rendered value, after the earlier parts |
| `Transcriptions.WriteFieldShape` | api/v1_transcriptions.go:15-21 | each `writeField` appends its field name only when the value is set, and the optional parts keep holding their rendered values |
| `Transcriptions.BuildForm` | api/v1_transcriptions.go:51-78 | only a file-read failure fails the form; the field names are the order file, model, language, temperature, response_format, prompt restricted to the fields that are set; the file part holds the file's base name and content; the model field holds the model; each optional part holds its field's rendered value |
| `Transcriptions.FormPartsShape` | api/v1_transcriptions.go:54-75 | the written parts have the fixed field order with unset optional fields left out, and each holds its value |
| `Transcriptions.Classify` | api/v1_transcriptions.go:101-123 | a 200 never returns an output; the error is nil iff a 200 body decodes; Unauthorized iff a 401 body decodes; every other status gives the raw-body output with the bare Unknown sentinel |
| `Transcriptions.ClassifyFollowsPolicy` | api/v1_transcriptions.go:101-123 | the classification is the reference that drops the 200 output |
| `Transcriptions.AudioTranscriptionsV1` | api/v1_transcriptions.go:46-124 | each step's failure returns `(nil, err)` with its own error and nothing sent: validation, reading the file, URL parse, request construction and `setToken`; a request is dispatched exactly when all of them succeed. It is a POST to the URL `endpoint()` resolved, with the path /v1/audio/transcriptions. It carries the form, and exactly the headers of a request holding the form Content-Type after `setToken`: the bearer key and the organization. A transport failure returns `(nil, err)` with the transport's error; otherwise the reply is the classification |
| `Transcriptions.MissingCredentialAborts` | api/v1_transcriptions.go:93-95 | a credential failure is returned as the call's error, and nothing is sent |
| `Transcriptions.TranscriptDropped` | api/v1_transcriptions.go:102-107 | for every dispatched request whose reply is a 200 with a body that decodes, the caller receives `(nil, nil)` |
| `Images.Validate` | api/v1_images_generations.go:19-24 | validation passes iff a prompt is given, failing with "no prompt" |
| `Images.Classify` | api/v1_images_generations.go:65-85 | the error is nil iff a 200 body decodes or the status is neither 200 nor 401; Unauthorized iff a 401 body decodes; never Unknown or BadGateway; other statuses give the raw-body output |
| `Images.ClassifyFollowsPolicy` | api/v1_images_generations.go:65-85 | the classification is the reference that reports no error for unexpected statuses |
| `Images.ImagesGenerationsV1` | api/v1_images_generations.go:34-86 | each step's failure returns `(nil, err)` with its own error and nothing sent: validation, encoding, URL parse, request construction and `setToken`; a request is dispatched exactly when all of them succeed. It is a POST to the URL `endpoint()` resolved, with the path /v1/images/generations. It carries the encoded input, and exactly the headers of a request holding the JSON Content-Type after `setToken`: the bearer key and the organization. A transport failure returns `(nil, err)` with the transport's error; otherwise the reply is the classification |
| `Images.MissingCredentialAborts` | api/v1_images_generations.go:56-58 | a credential failure is returned as the call's error, and nothing is sent |
| `Images.ServerErrorLooksLikeSuccess` | api/v1_images_generations.go:77-83 | every status other than 200 and 401 (a 500, say) gives a nil error, and only the output's error record holds the body |
| `ListFile.Classify` | api/v1_list_file.go:49-82 | the error is nil iff a 200 body decodes; Unauthorized iff a 401 body decodes; BadGateway iff 502; Unknown, carrying status and body, iff any other status; non-200/401 outputs hold only the raw body |
| `ListFile.ClassifyFollowsPolicy` | api/v1_list_file.go:49-82 | the classification is the reference with every branch enabled |
| `ListFile.ListFileV1` | api/v1_list_file.go:28-83 | a request is sent exactly when the URL and the request can be built; a failure of either returns `(nil, err)` with the library's error. The request is a GET with no body to the URL `endpoint()` resolved, with the path /v1/files. Its headers are exactly those `setToken` leaves on an empty request: `Authorization: Bearer <key>` and `OpenAI-Organization: <org>` exactly when both credentials are set, and none otherwise, so a missing credential is ignored. A transport failure returns `(nil, err)` with the transport's error; otherwise the reply is the classification |
| `Models.Classify` | api/v1_models.go:70-92 | the error is nil iff a 200 body decodes; Unauthorized iff a 401 body decodes; never BadGateway; every other status, 502 included, gives the raw-body output with the bare Unknown sentinel |
| `Models.ClassifyFollowsPolicy` | api/v1_models.go:70-92 | the classification is the reference without a 502 branch and with bare Unknown |
| `Models.ListModelsV1` | api/v1_models.go:49-93 | a request is sent exactly when the URL and the request can be built; a failure of either returns `(nil, err)` with the library's error. The request is a GET with no body to the URL `endpoint()` resolved, with the path /v1/models. Its headers are exactly those `setToken` leaves on an empty request: `Authorization: Bearer <key>` and `OpenAI-Organization: <org>` exactly when both credentials are set, and none otherwise, so a missing credential is ignored. A transport failure returns `(nil, err)` with the transport's error; otherwise the reply is the classification |
| `Comparison.BadGatewayHandling` | api/v1_list_file.go:62-70 | on a 502, chat completions and file listing wrap BadGateway with the body; older chat, models and transcription return bare Unknown; images returns no error |
| `Comparison.SuccessOutput` | api/v1_transcriptions.go:102-107 | a decoded 200 body reaches the caller from every operation except transcription |
| `Comparison.UnknownStatusHandling` | api/v1_images_generations.go:77-83 | for any other unexpected status, chat completions and file listing wrap Unknown with the status and body; older chat returns bare Unknown; images returns no error |

## Left out

- The HTTP transport, request construction details beyond method, URL path, headers and body, and
  draining or closing bodies. These are I/O. The response is an abstract status and body.
- JSON encoding and decoding, `url.Parse`, `http.NewRequest` failure, the multipart writer's byte
  format and boundary, `filepath.Base` and `fmt.Sprint` of a float32. These are library calls and
  appear as function parameters.
- The exact text of error messages. Wrapped errors keep their parts (status code, body, function
  name) as a `Context`; formatting is left to `fmt`. The sentinels' own strings are not modelled
  either. `ErrUnknown`'s text is spelled "Unkonown" in the code.
- `NewFunction` and `Function`: schema generation reflects through an external library. Function
  declarations in the input are opaque values.
- Float fields such as temperature, top_p and the penalties are opaque bit patterns.
- `String()` methods: they are debug JSON dumps.
- Opening, reading and closing the audio file: reading is the `FormEnv.readFile` parameter.
- `api/iface.go`: it is only an interface declaration.
- The query, fragment, user info and port of the base URL: `Url` holds only scheme, host and path, and
  the client replaces only the path.
- Header key canonicalisation by `net/http` (`OpenAI-Organization` is stored as `Openai-Organization`).
  Keys are kept as written. `Header.Set` on a fresh request is modelled as an append.
- Transcriptions.WriteField: the multipart writer's error results are not modelled. This covers
  `writeField` and also `CreateFormFile`, `WriteField("model", ...)` and `writer.Close`
  (api/v1_transcriptions.go:54-57, 61-63, 76-78). All of them write into an in-memory buffer, which
  never fails. Only the copy of the file's contents (the `FormEnv.readFile` parameter) can fail.
- ArgumentResolver.ParseArguments: Go decodes into a caller-supplied destination in place. The model
  returns the decoded value instead, and does not model partial writes to the destination when
  decoding fails.
- A tool-calls fallback, a `response_format` whitelist and verbose transcription segments: the code
  has none of them.
- Nil pointers: in Go, a client built by `New(nil)` panics in `endpoint()` on every operation
  (api/api.go:26). A nil input panics in each `Validate`/`validate`. A nil response receiver panics in
  `ParseArguments`. The model's `Api`, inputs and response are plain values that cannot be nil, so
  these panics are outside the model, and `Panicked` stands only for the failed-`http.NewRequest`
  case.

=== FILE: argument_resolver.dfy ===
/** `ChatCompletionsV1Output.ParseArguments` (api/v1_chat_completions.go):
    find the legacy function call with a given name among a response's
    choices and decode its argument string. */
module ArgumentResolver {
  import opened Prelude
  import opened Errors
  import opened ChatCompletions

  /** `lo.Map`: the function call of every choice, nil where there is none. */
  function CallsOf(choices: seq<Choice>): (calls: seq<Option<FunctionCall>>)
    ensures |calls| == |choices|
    ensures forall i | 0 <= i < |choices| :: calls[i] == choices[i].message.functionCall
  {
    seq(|choices|, i requires 0 <= i < |choices| => choices[i].message.functionCall)
  }

  /** `lo.Filter(..., fc != nil)`: the non-nil calls, in their original order. */
  function Present(calls: seq<Option<FunctionCall>>): (r: seq<FunctionCall>)
    ensures forall fc :: fc in r <==> Some(fc) in calls
  {
    if |calls| == 0 then []
    else (if calls[0].Some? then [calls[0].value] else []) + Present(calls[1..])
  }

  /** The calls `ParseArguments` considers. */
  function FunctionCalls(choices: seq<Choice>): seq<FunctionCall> {
    Present(CallsOf(choices))
  }

  lemma {:induction false} PresentAppend(a: seq<Option<FunctionCall>>, b: seq<Option<FunctionCall>>)
    ensures Present(a + b) == Present(a) + Present(b)
  {
    if |a| == 0 {
      assert a + b == b;
    } else {
      var ab := a + b;
      assert ab[0] == a[0];
      assert ab[1..] == a[1..] + b;
      PresentAppend(a[1..], b);
    }
  }

  /** Filtering keeps exactly the calls that are present, and keeps their
      order: the calls of a concatenation are the concatenated calls. */
  lemma {:induction false} FunctionCallsSpec(choices: seq<Choice>, more: seq<Choice>)
    ensures forall fc :: fc in FunctionCalls(choices) <==>
              exists i | 0 <= i < |choices| :: choices[i].message.functionCall == Some(fc)
    ensures FunctionCalls(choices + more) == FunctionCalls(choices) + FunctionCalls(more)
  {
    assert CallsOf(choices + more) == CallsOf(choices) + CallsOf(more);
    PresentAppend(CallsOf(choices), CallsOf(more));
  }

  /** The choice carries a function call named `name`. */
  predicate Names(c: Choice, name: string) {
    c.message.functionCall.Some? && c.message.functionCall.value.name == name
  }

  /** The reference: the call of the first choice, in response order, whose
      function call is named `name`. */
  function FirstNamed(choices: seq<Choice>, name: string): (r: Option<FunctionCall>)
    ensures r.None? <==> forall j | 0 <= j < |choices| :: !Names(choices[j], name)
    ensures r.Some? ==> exists j | 0 <= j < |choices| ::
              && Names(choices[j], name)
              && choices[j].message.functionCall == r
              && forall k | 0 <= k < j :: !Names(choices[k], name)
  {
    if |choices| == 0 then None
    else if Names(choices[0], name) then choices[0].message.functionCall
    else
      var r := FirstNamed(choices[1..], name);
      assert forall j | 1 <= j < |choices| :: choices[j] == choices[1..][j - 1];
      r
  }

  /** The first call named `name` among already filtered calls. */
  function FirstCall(calls: seq<FunctionCall>, name: string): Option<FunctionCall> {
    if |calls| == 0 then None
    else if calls[0].name == name then Some(calls[0])
    else FirstCall(calls[1..], name)
  }

  /** Searching the filtered calls finds what the reference finds. */
  lemma {:induction false} FirstCallOfFiltered(choices: seq<Choice>, name: string)
    ensures FirstCall(FunctionCalls(choices), name) == FirstNamed(choices, name)
  {
    if |choices| > 0 {
      assert choices == [choices[0]] + choices[1..];
      FunctionCallsSpec([choices[0]], choices[1..]);
      FirstCallOfFiltered(choices[1..], name);
      assert CallsOf([choices[0]]) == [choices[0].message.functionCall];
      assert Present([choices[0].message.functionCall])
          == (if choices[0].message.functionCall.Some? then [choices[0].message.functionCall.value] else []);
      if choices[0].message.functionCall.Some? {
        assert FunctionCalls(choices) == [choices[0].message.functionCall.value] + FunctionCalls(choices[1..]);
        assert (FunctionCalls(choices))[1..] == FunctionCalls(choices[1..]);
      } else {
        assert FunctionCalls(choices) == FunctionCalls(choices[1..]);
      }
    }
  }

  /** Only the calls matter: choices without a call, and the choices' other
      fields, are never looked at. */
  lemma OnlyCallsMatter(a: seq<Choice>, b: seq<Choice>, name: string)
    requires FunctionCalls(a) == FunctionCalls(b)
    ensures FirstNamed(a, name) == FirstNamed(b, name)
  {
    FirstCallOfFiltered(a, name);
    FirstCallOfFiltered(b, name);
  }

  /** Once a choice at `i` names the function, nothing after it is examined:
      two responses that agree up to that choice resolve the same, whatever
      follows it, later matches included. */
  lemma {:induction false} LaterChoicesIgnored(choices: seq<Choice>, other: seq<Choice>, name: string, i: nat)
    requires i < |choices| && i < |other| && Names(choices[i], name)
    requires forall k | 0 <= k <= i :: other[k] == choices[k]
    ensures FirstNamed(other, name) == FirstNamed(choices, name)
  {
    if !Names(choices[0], name) {
      LaterChoicesIgnored(choices[1..], other[1..], name, i - 1);
    }
  }

  /** A decode outcome as `ParseArguments` reports it: a decode error is
      returned as it is. */
  function Decoded<V>(d: Result<V, ForeignError>): (r: Result<V, Err>)
    ensures d.Success? <==> r.Success?
    ensures d.Success? ==> r.value == d.value
    ensures d.Failure? ==> r.error == Foreign(d.error)
  {
    match d
    case Success(v) => Success(v)
    case Failure(e) => Failure(Foreign(e))
  }

  /** `ParseArguments(funcName, v)`: the decoded arguments of the first
      choice whose function call is named `funcName`. A nil `Choices`, or no
      such call, is an error wrapping the parse sentinel; a decode failure
      is not. */
  method ParseArguments<V>(output: Output, funcName: string, unmarshal: string -> Result<V, ForeignError>)
    returns (r: Result<V, Err>)
    ensures output.choices.None? ==>
              r == Failure(Wrapped(ChoicesNil, ParseFunctionCallingArguments))
    ensures output.choices.Some? && FirstNamed(output.choices.value, funcName).None? ==>
              r == Failure(Wrapped(FunctionNotFound(funcName), ParseFunctionCallingArguments))
    ensures output.choices.Some? && FirstNamed(output.choices.value, funcName).Some? ==>
              r == Decoded(unmarshal(FirstNamed(output.choices.value, funcName).value.arguments))
  {
    if output.choices.None? {
      return Failure(Wrapped(ChoicesNil, ParseFunctionCallingArguments));
    }
    var choices := output.choices.value;
    var calls := Present(CallsOf(choices));
    FirstCallOfFiltered(choices, funcName);
    var i := 0;
    while i < |calls|
      invariant 0 <= i <= |calls|
      invariant FirstCall(calls[i..], funcName) == FirstNamed(choices, funcName)
    {
      if calls[i].name == funcName {
        return Decoded(unmarshal(calls[i].arguments));
      }
      assert calls[i..][1..] == calls[i + 1..];
      i := i + 1;
    }
    return Failure(Wrapped(FunctionNotFound(funcName), ParseFunctionCallingArguments));
  }
}

=== FILE: chat_completions.dfy ===
/** The chat-completions operation with function calling
    (api/v1_chat_completions.go): its input and output records, input
    validation, the status classification and the whole call. The argument
    resolver `ParseArguments` is in module ArgumentResolver. */
module ChatCompletions {
  import opened Prelude
  import opened Errors
  import opened Http
  import opened Client
  import Taxonomy

  const Path: string := "/v1/chat/completions"

  datatype Message = Message(role: string, content: string)

  /** A JSON schema generated by reflection; never inspected by the client. */
  datatype Schema = Schema(raw: string)

  /** A function declaration offered to the model. */
  datatype Function = Function(name: string, description: string, parameters: Option<Schema>)

  datatype Input = Input(
    model: Option<string>,
    messages: seq<Message>,
    functions: seq<Option<Function>>,
    temperature: Option<Float32>,
    topP: Option<Float32>,
    n: int,
    stop: seq<string>,
    maxTokens: Option<int>,
    presencePenalty: Option<Float32>,
    frequencyPenalty: Option<Float32>,
    logitBias: Option<JsonAny>,
    user: Option<string>,
    functionCall: Option<JsonAny>)

  datatype Usage = Usage(promptTokens: int, completionTokens: int, totalTokens: int)

  /** A legacy single function call carried by a choice. */
  datatype FunctionCall = FunctionCall(name: string, arguments: string)

  datatype ChoiceMessage = ChoiceMessage(role: string, content: Option<string>, functionCall: Option<FunctionCall>)

  datatype Choice = Choice(message: ChoiceMessage, finishReason: string, index: int)

  /** `Choices` distinguishes a missing list (`None`, Go nil) from an empty one. */
  datatype Output = Output(
    id: Option<string>,
    objectType: Option<string>,
    created: Option<int>,
    model: Option<string>,
    usage: Option<Usage>,
    choices: Option<seq<Choice>>,
    error: Option<ApiError>)

  /** The output the client builds itself from a raw body. */
  function BodyOnly(body: string): (o: Output)
    ensures o.error == Some(MessageOnly(body)) && o.choices.None? && o.id.None? && o.model.None?
  {
    Output(None, None, None, None, None, None, Some(MessageOnly(body)))
  }

  /** `Validate`: a model must be named and at least one message given; the
      model is checked first. */
  function Validate(input: Input): (r: Option<Err>)
    ensures r.None? <==> input.model.Some? && |input.messages| > 0
    ensures input.model.None? ==> r == Some(Text("model is empty"))
    ensures input.model.Some? && |input.messages| == 0 ==> r == Some(Text("messages is empty"))
  {
    if input.model.None? then Some(Text("model is empty"))
    else if |input.messages| == 0 then Some(Text("messages is empty"))
    else None
  }

  /** The status switch after the round trip. */
  function Classify(status: int, body: string, decoded: Result<Output, ForeignError>): (r: Reply<Output>)
    ensures r.err.None? <==> status == StatusOK && decoded.Success?
    ensures Is(r.err, Unauthorized) <==> status == StatusUnauthorized && decoded.Success?
    ensures Is(r.err, BadGateway) <==> status == StatusBadGateway
    ensures Is(r.err, Unknown) <==> status != StatusOK && status != StatusUnauthorized && status != StatusBadGateway
    ensures (status == StatusOK || status == StatusUnauthorized) ==>
              r.output == (if decoded.Success? then Some(decoded.value) else None)
    ensures status != StatusOK && status != StatusUnauthorized ==>
              r.output == Some(BodyOnly(body)) && Reports(r.err, body)
  {
    if status == StatusOK then DecodedWith(decoded, None)
    else if status == StatusUnauthorized then DecodedWith(decoded, Some(Bare(Unauthorized)))
    else if status == StatusBadGateway then
      Reply(Some(BodyOnly(body)), Some(Wrapped(MessageContext(body), BadGateway)))
    else
      Reply(Some(BodyOnly(body)), Some(Wrapped(StatusContext(status, body), Unknown)))
  }

  const Policy: Taxonomy.Policy :=
    Taxonomy.Policy(keepsOkOutput := true, badGatewayBranch := true, unknownCarriesStatus := true, reportsUnexpected := true)

  lemma ClassifyFollowsPolicy(status: int, body: string, decoded: Result<Output, ForeignError>)
    ensures Classify(status, body, decoded) == Taxonomy.Expected(Policy, status, body, decoded, BodyOnly(body))
  {
  }

  /** `ChatCompletionsV1`: validate, encode, resolve the URL, build the
      request, dispatch and classify. A failing http.NewRequest leaves a nil
      request whose header map is written before the error is checked: a
      panic. */
  function ChatCompletionsV1(api: Api, input: Input, encode: Input -> Result<string, ForeignError>,
                             t: Transport<Output>): (r: Call<Output>)
    ensures Validate(input).Some? ==> r == Abort(Validate(input).value)
    ensures Validate(input).None? && encode(input).Failure? ==> r == Abort(Foreign(encode(input).error))
    ensures var u := Locate(api, t.parseUrl, Path);
            Validate(input).None? && encode(input).Success? && u.Failure? ==> r == Abort(Foreign(u.error))
    ensures var u := Locate(api, t.parseUrl, Path);
            r.Panicked? <==>
              Validate(input).None? && encode(input).Success? && u.Success? && t.requestError(u.value).Some?
    ensures var u := Locate(api, t.parseUrl, Path);
            r.Returned? ==>
              (r.sent.Some? <==>
                 Validate(input).None? && encode(input).Success? && u.Success? && t.requestError(u.value).None?)
    ensures r.Returned? && r.sent.Some? ==>
              var base := [Header(ContentTypeKey, JsonContentType)];
              && Validate(input).None?
              && encode(input).Success?
              && Locate(api, t.parseUrl, Path).Success?
              && r.sent.value == Request(Post, Locate(api, t.parseUrl, Path).value, SetToken(api, base).headers,
                                         JsonBody(encode(input).value))
              && HeaderValues(r.sent.value.headers, ContentTypeKey) == [JsonContentType]
              && HeaderValues(r.sent.value.headers, AuthorizationKey) == BearerFor(api.configuration)
              && HeaderValues(r.sent.value.headers, OrganizationKey) == OrganizationFor(api.configuration)
    ensures r.Returned? && r.sent.Some? && t.send(r.sent.value).Failure? ==>
              r.reply == Reply(None, Some(Foreign(t.send(r.sent.value).error)))
    ensures r.Returned? && r.sent.Some? && t.send(r.sent.value).Success? ==>
              var resp := t.send(r.sent.value).value;
              r.reply == Classify(resp.statusCode, resp.body, t.decode(resp.body))
  {
    match Validate(input)
    case Some(e) => Abort(e)
    case None =>
      match encode(input)
      case Failure(e) => Abort(Foreign(e))
      case Success(json) =>
        match Locate(api, t.parseUrl, Path)
        case Failure(e) => Abort(Foreign(e))
        case Success(url) =>
          if t.requestError(url).Some? then Panicked
          else
            var req := JsonPostIgnoringToken(api, url, json);
            match t.send(req)
            case Failure(e) => Returned(Some(req), Reply(None, Some(Foreign(e))))
            case Success(resp) => Returned(Some(req), Classify(resp.statusCode, resp.body, t.decode(resp.body)))
  }

  /** A missing credential never stops the request from being dispatched. */
  lemma MissingCredentialIgnored(api: Api, input: Input, encode: Input -> Result<string, ForeignError>, t: Transport<Output>)
    requires Validate(input).None? && encode(input).Success?
    requires Locate(api, t.parseUrl, Path).Success?
    requires t.requestError(Locate(api, t.parseUrl, Path).value).None?
    ensures ChatCompletionsV1(api, input, encode, t).Returned?
    ensures ChatCompletionsV1(api, input, encode, t).sent.Some?
  {
  }
}

=== FILE: chat_legacy.dfy ===
/** The older chat-completions operation without function calling
    (api/v1_chat.go). It declares the same Go identifiers as
    api/v1_chat_completions.go, so it lives in a module of its own. */
module ChatLegacy {
  import opened Prelude
  import opened Errors
  import opened Http
  import opened Client
  import Taxonomy

  const Path: string := "/v1/chat/completions"

  datatype Message = Message(role: string, content: string)

  datatype Input = Input(
    model: Option<string>,
    messages: seq<Message>,
    temperature: Option<Float32>,
    topP: Option<Float32>,
    n: int,
    stop: seq<string>,
    maxTokens: Option<int>,
    presencePenalty: Option<Float32>,
    frequencyPenalty: Option<Float32>,
    logitBias: Option<JsonAny>,
    user: Option<string>)

  datatype Usage = Usage(promptTokens: int, completionTokens: int, totalTokens: int)

  datatype ChoiceMessage = ChoiceMessage(role: string, content: string)

  datatype Choice = Choice(message: ChoiceMessage, finishReason: string, index: int)

  datatype Output = Output(
    id: Option<string>,
    objectType: Option<string>,
    created: Option<int>,
    model: Option<string>,
    usage: Option<Usage>,
    choices: seq<Choice>,
    error: Option<ApiError>)

  function BodyOnly(body: string): (o: Output)
    ensures o.error == Some(MessageOnly(body)) && o.choices == [] && o.id.None? && o.model.None?
  {
    Output(None, None, None, None, None, [], Some(MessageOnly(body)))
  }

  /** `Validate`: a model must be named and at least one message given; the
      model is checked first. */
  function Validate(input: Input): (r: Option<Err>)
    ensures r.None? <==> input.model.Some? && |input.messages| > 0
    ensures input.model.None? ==> r == Some(Text("model is empty"))
    ensures input.model.Some? && |input.messages| == 0 ==> r == Some(Text("messages is empty"))
  {
    if input.model.None? then Some(Text("model is empty"))
    else if |input.messages| == 0 then Some(Text("messages is empty"))
    else None
  }

  /** The status switch: there is no 502 branch, and every status other than
      200 and 401 yields the bare Unknown sentinel. */
  function Classify(status: int, body: string, decoded: Result<Output, ForeignError>): (r: Reply<Output>)
    ensures r.err.None? <==> status == StatusOK && decoded.Success?
    ensures Is(r.err, Unauthorized) <==> status == StatusUnauthorized && decoded.Success?
    ensures !Is(r.err, BadGateway)
    ensures (status == StatusOK || status == StatusUnauthorized) ==>
              r.output == (if decoded.Success? then Some(decoded.value) else None)
    ensures status != StatusOK && status != StatusUnauthorized ==>
              r == Reply(Some(BodyOnly(body)), Some(Bare(Unknown)))
  {
    if status == StatusOK then DecodedWith(decoded, None)
    else if status == StatusUnauthorized then DecodedWith(decoded, Some(Bare(Unauthorized)))
    else Reply(Some(BodyOnly(body)), Some(Bare(Unknown)))
  }

  const Policy: Taxonomy.Policy :=
    Taxonomy.Policy(keepsOkOutput := true, badGatewayBranch := false, unknownCarriesStatus := false, reportsUnexpected := true)

  lemma ClassifyFollowsPolicy(status: int, body: string, decoded: Result<Output, ForeignError>)
    ensures Classify(status, body, decoded) == Taxonomy.Expected(Policy, status, body, decoded, BodyOnly(body))
  {
  }

  /** `ChatCompletionsV1` of api/v1_chat.go: the same steps as the newer
      variant, including the panic on a failed http.NewRequest. */
  function ChatCompletionsV1(api: Api, input: Input, encode: Input -> Result<string, ForeignError>,
                             t: Transport<Output>): (r: Call<Output>)
    ensures Validate(input).Some? ==> r == Abort(Validate(input).value)
    ensures Validate(input).None? && encode(input).Failure? ==> r == Abort(Foreign(encode(input).error))
    ensures var u := Locate(api, t.parseUrl, Path);
            Validate(input).None? && encode(input).Success? && u.Failure? ==> r == Abort(Foreign(u.error))
    ensures var u := Locate(api, t.parseUrl, Path);
            r.Panicked? <==>
              Validate(input).None? && encode(input).Success? && u.Success? && t.requestError(u.value).Some?
    ensures var u := Locate(api, t.parseUrl, Path);
            r.Returned? ==>
              (r.sent.Some? <==>
                 Validate(input).None? && encode(input).Success? && u.Success? && t.requestError(u.value).None?)
    ensures r.Returned? && r.sent.Some? ==>
              var base := [Header(ContentTypeKey, JsonContentType)];
              && Validate(input).None?
              && encode(input).Success?
              && Locate(api, t.parseUrl, Path).Success?
              && r.sent.value == Request(Post, Locate(api, t.parseUrl, Path).value, SetToken(api, base).headers,
                                         JsonBody(encode(input).value))
              && HeaderValues(r.sent.value.headers, ContentTypeKey) == [JsonContentType]
              && HeaderValues(r.sent.value.headers, AuthorizationKey) == BearerFor(api.configuration)
              && HeaderValues(r.sent.value.headers, OrganizationKey) == OrganizationFor(api.configuration)
    ensures r.Returned? && r.sent.Some? && t.send(r.sent.value).Failure? ==>
              r.reply == Reply(None, Some(Foreign(t.send(r.sent.value).error)))
    ensures r.Returned? && r.sent.Some? && t.send(r.sent.value).Success? ==>
              var resp := t.send(r.sent.value).value;
              r.reply == Classify(resp.statusCode, resp.body, t.decode(resp.body))
  {
    match Validate(input)
    case Some(e) => Abort(e)
    case None =>
      match encode(input)
      case Failure(e) => Abort(Foreign(e))
      case Success(json) =>
        match Locate(api, t.parseUrl, Path)
        case Failure(e) => Abort(Foreign(e))
        case Success(url) =>
          if t.requestError(url).Some? then Panicked
          else
            var req := JsonPostIgnoringToken(api, url, json);
            match t.send(req)
            case Failure(e) => Returned(Some(req), Reply(None, Some(Foreign(e))))
            case Success(resp) => Returned(Some(req), Classify(resp.statusCode, resp.body, t.decode(resp.body)))
  }

  lemma MissingCredentialIgnored(api: Api, input: Input, encode: Input -> Result<string, ForeignError>, t: Transport<Output>)
    requires Validate(input).None? && encode(input).Success?
    requires Locate(api, t.parseUrl, Path).Success?
    requires t.requestError(Locate(api, t.parseUrl, Path).value).None?
    ensures ChatCompletionsV1(api, input, encode, t).Returned?
    ensures ChatCompletionsV1(api, input, encode, t).sent.Some?
  {
  }
}

=== FILE: client.dfy ===
/** The client itself (api/api.go): its configuration, the base URL every
    request starts from, and the two credential headers. */
module Client {
  import opened Prelude
  import opened Errors
  import opened Http

  /** `config.Configuration`: every setting is optional. */
  datatype Config = Config(endpoint: Option<string>, apiKey: Option<string>, organization: Option<string>)

  /** `OpenAIAPI`; its `http.Client` is the `send` field of a `Transport`. */
  datatype Api = Api(configuration: Config)

  const DefaultEndpoint: string := "https://api.openai.com"

  function New(cfg: Config): (api: Api)
    ensures api.configuration == cfg
  {
    Api(cfg)
  }

  /** `endpoint()`: the configured base URL, or the public one when unset,
      handed to url.Parse. */
  function Endpoint(api: Api, parse: string -> Result<Url, ForeignError>): (r: Result<Url, ForeignError>)
    ensures api.configuration.endpoint.None? ==> r == parse(DefaultEndpoint)
    ensures api.configuration.endpoint.Some? ==> r == parse(api.configuration.endpoint.value)
  {
    match api.configuration.endpoint
    case None => parse(DefaultEndpoint)
    case Some(e) => parse(e)
  }

  /** `endpoint()` followed by `endpoint.Path = path`. */
  function Locate(api: Api, parse: string -> Result<Url, ForeignError>, path: string): (r: Result<Url, ForeignError>)
    ensures Endpoint(api, parse).Failure? ==> r == Endpoint(api, parse)
    ensures Endpoint(api, parse).Success? ==> r.Success? && r.value == Endpoint(api, parse).value.(path := path)
  {
    match Endpoint(api, parse)
    case Failure(e) => Failure(e)
    case Success(u) => Success(u.(path := path))
  }

  /** The request headers after `setToken`, and the error it returned. */
  datatype Stamped = Stamped(headers: seq<Header>, err: Option<Err>)

  const AuthorizationKey: string := "Authorization"
  const OrganizationKey: string := "OpenAI-Organization"

  /** `setToken(req)`: both credentials are required, the key checked first;
      on success exactly the two credential headers are appended. */
  function SetToken(api: Api, headers: seq<Header>): (r: Stamped)
    ensures r.err.None? <==> api.configuration.apiKey.Some? && api.configuration.organization.Some?
    ensures api.configuration.apiKey.None? ==> r.err == Some(Text("no token"))
    ensures api.configuration.apiKey.Some? && api.configuration.organization.None? ==>
              r.err == Some(Text("no organization"))
    ensures r.err.Some? ==> r.headers == headers
    ensures r.err.None? ==> |r.headers| == |headers| + 2 && r.headers[..|headers|] == headers
  {
    var cfg := api.configuration;
    if cfg.apiKey.None? then Stamped(headers, Some(Text("no token")))
    else if cfg.organization.None? then Stamped(headers, Some(Text("no organization")))
    else Stamped(headers + [Header(AuthorizationKey, "Bearer " + cfg.apiKey.value),
                            Header(OrganizationKey, cfg.organization.value)], None)
  }

  /** The `Authorization` values a request carries after `setToken`, when it
      had none before: the bearer key exactly when both credentials are set. */
  function BearerFor(cfg: Config): seq<string> {
    if cfg.apiKey.Some? && cfg.organization.Some? then ["Bearer " + cfg.apiKey.value] else []
  }

  function OrganizationFor(cfg: Config): seq<string> {
    if cfg.apiKey.Some? && cfg.organization.Some? then [cfg.organization.value] else []
  }

  lemma SetTokenHeaders(api: Api, headers: seq<Header>)
    requires HeaderValues(headers, AuthorizationKey) == []
    requires HeaderValues(headers, OrganizationKey) == []
    ensures HeaderValues(SetToken(api, headers).headers, AuthorizationKey) == BearerFor(api.configuration)
    ensures HeaderValues(SetToken(api, headers).headers, OrganizationKey) == OrganizationFor(api.configuration)
    ensures forall k | k != AuthorizationKey && k != OrganizationKey ::
              HeaderValues(SetToken(api, headers).headers, k) == HeaderValues(headers, k)
  {
    var cfg := api.configuration;
    if cfg.apiKey.Some? && cfg.organization.Some? {
      var auth := Header(AuthorizationKey, "Bearer " + cfg.apiKey.value);
      var org := Header(OrganizationKey, cfg.organization.value);
      assert |AuthorizationKey| != |OrganizationKey|;
      assert SetToken(api, headers).headers == headers + [auth, org];
      forall k: string
        ensures HeaderValues(headers + [auth, org], k) ==
                  HeaderValues(headers, k) + (if auth.key == k then [auth.value] else [])
                  + (if org.key == k then [org.value] else [])
      {
        HeaderValuesAppend(headers, [auth, org], k);
        PairValues(auth, org, k);
      }
    }
  }

  lemma PairValues(h1: Header, h2: Header, key: string)
    ensures HeaderValues([h1, h2], key) ==
              (if h1.key == key then [h1.value] else []) + (if h2.key == key then [h2.value] else [])
  {
    assert [h1, h2][1..] == [h2];
    assert [h2][1..] == [];
  }

  /** A JSON POST request whose `setToken` result is ignored, as both chat
      operations build it: the credential headers are there when both
      credentials are configured and absent otherwise. */
  function JsonPostIgnoringToken(api: Api, url: Url, json: string): (req: Request)
    ensures req.verb == Post && req.url == url && req.body == JsonBody(json)
    ensures HeaderValues(req.headers, ContentTypeKey) == [JsonContentType]
    ensures HeaderValues(req.headers, AuthorizationKey) == BearerFor(api.configuration)
    ensures HeaderValues(req.headers, OrganizationKey) == OrganizationFor(api.configuration)
  {
    var base := [Header(ContentTypeKey, JsonContentType)];
    assert base[1..] == [];
    SetTokenHeaders(api, base);
    Request(Post, url, SetToken(api, base).headers, JsonBody(json))
  }
}

=== FILE: comparison.dfy ===
/** Where the operations' status classifications disagree, stated side by
    side on the same response. */
module Comparison {
  import opened Prelude
  import opened Errors
  import opened Http
  import ChatCompletions
  import ChatLegacy
  import Transcriptions
  import Images
  import ListFile
  import Models

  /** Only chat completions with function calling and file listing give 502 a
      branch of its own; the older chat, models and transcription report it as
      the bare Unknown sentinel, and images report no error at all. */
  lemma BadGatewayHandling(body: string,
                           dc: Result<ChatCompletions.Output, ForeignError>, dl: Result<ChatLegacy.Output, ForeignError>,
                           dt: Result<Transcriptions.Output, ForeignError>, di: Result<Images.Output, ForeignError>,
                           df: Result<ListFile.Output, ForeignError>, dm: Result<Models.Output, ForeignError>)
    ensures ChatCompletions.Classify(StatusBadGateway, body, dc).err == Some(Wrapped(MessageContext(body), BadGateway))
    ensures ListFile.Classify(StatusBadGateway, body, df).err == Some(Wrapped(MessageContext(body), BadGateway))
    ensures ChatLegacy.Classify(StatusBadGateway, body, dl).err == Some(Bare(Unknown))
    ensures Models.Classify(StatusBadGateway, body, dm).err == Some(Bare(Unknown))
    ensures Transcriptions.Classify(StatusBadGateway, body, dt).err == Some(Bare(Unknown))
    ensures Images.Classify(StatusBadGateway, body, di).err.None?
  {
  }

  /** A decoded 200 body reaches the caller everywhere except in transcription. */
  lemma SuccessOutput(body: string,
                      oc: ChatCompletions.Output, ol: ChatLegacy.Output, ot: Transcriptions.Output,
                      oi: Images.Output, of: ListFile.Output, om: Models.Output)
    ensures ChatCompletions.Classify(StatusOK, body, Success(oc)) == Reply(Some(oc), None)
    ensures ChatLegacy.Classify(StatusOK, body, Success(ol)) == Reply(Some(ol), None)
    ensures Images.Classify(StatusOK, body, Success(oi)) == Reply(Some(oi), None)
    ensures ListFile.Classify(StatusOK, body, Success(of)) == Reply(Some(of), None)
    ensures Models.Classify(StatusOK, body, Success(om)) == Reply(Some(om), None)
    ensures Transcriptions.Classify(StatusOK, body, Success(ot)) == Reply(None, None)
  {
  }

  /** Any other unexpected status: the two operations with a 502 branch wrap
      Unknown with the status code; images stays silent. */
  lemma UnknownStatusHandling(status: int, body: string,
                              dc: Result<ChatCompletions.Output, ForeignError>, dl: Result<ChatLegacy.Output, ForeignError>,
                              di: Result<Images.Output, ForeignError>, df: Result<ListFile.Output, ForeignError>)
    requires status != StatusOK && status != StatusUnauthorized && status != StatusBadGateway
    ensures ChatCompletions.Classify(status, body, dc).err == Some(Wrapped(StatusContext(status, body), Unknown))
    ensures ListFile.Classify(status, body, df).err == Some(Wrapped(StatusContext(status, body), Unknown))
    ensures ChatLegacy.Classify(status, body, dl).err == Some(Bare(Unknown))
    ensures Images.Classify(status, body, di).err.None?
  {
  }
}

=== FILE: errors.dfy ===
/** The client's error values: the sentinels of api/error.go, the errors it
    builds with errors.New / xerrors.New / xerrors.Errorf, errors passed up
    from libraries, and the `Error` record the provider sends in a body. */
module Errors {
  import opened Prelude

  /** The comparable sentinel errors. `Unauthorized` and `Unknown` are declared
      in api/error.go; `BadGateway` and `ParseFunctionCallingArguments` are
      used by the client but declared elsewhere, so they stay opaque here. */
  datatype Sentinel = Unauthorized | Unknown | BadGateway | ParseFunctionCallingArguments

  /** What an `xerrors.Errorf(... %w, sentinel)` message reports besides the
      wrapped sentinel; the exact formatting is left to fmt. */
  datatype Context =
    | StatusContext(statusCode: int, message: string)   // the status code and the raw body
    | MessageContext(message: string)                   // the raw body
    | ChoicesNil                                        // a response without a choice list
    | FunctionNotFound(funcName: string)                // the function name that had no call

  /** A Go `error` value as produced by the client. */
  datatype Err =
    | Text(message: string)                       // errors.New / xerrors.New
    | Bare(sentinel: Sentinel)                    // the sentinel itself
    | Wrapped(context: Context, cause: Sentinel)  // xerrors.Errorf with %w
    | Foreign(origin: ForeignError)               // passed up from a library

  /** `errors.Is(err, s)`: the error is the sentinel or wraps it. */
  predicate Is(err: Option<Err>, s: Sentinel) {
    match err
    case None => false
    case Some(e) => e == Bare(s) || (e.Wrapped? && e.cause == s)
  }

  /** The error's message reports `body` verbatim. */
  predicate Reports(err: Option<Err>, body: string) {
    && err.Some? && err.value.Wrapped?
    && (err.value.context.StatusContext? || err.value.context.MessageContext?)
    && err.value.context.message == body
  }

  /** The provider's error record (api/error.go `Error`). */
  datatype ApiError = ApiError(message: string, kind: string, param: Option<JsonAny>, code: string)

  /** `&Error{Message: body}`: every other field keeps its zero value. */
  function MessageOnly(body: string): (e: ApiError)
    ensures e.message == body && e.param.None? && e.kind == [] && e.code == []
  {
    ApiError(body, "", None, "")
  }
}

=== FILE: http.dfy ===
/** The shapes of one HTTP round trip as the client sees it: the request it
    builds, the response it receives, and what an operation hands back. The
    transport and the libraries around it are parameters (`Transport`). */
module Http {
  import opened Prelude
  import opened Errors

  const StatusOK: int := 200
  const StatusUnauthorized: int := 401
  const StatusBadGateway: int := 502

  const ContentTypeKey: string := "Content-Type"
  const JsonContentType: string := "application/json"

  datatype Method = Get | Post

  datatype Header = Header(key: string, value: string)

  /** `http.Header.Values(key)`: every value added under `key`, in order. */
  function HeaderValues(headers: seq<Header>, key: string): (vs: seq<string>)
    ensures |vs| <= |headers|
  {
    if |headers| == 0 then []
    else (if headers[0].key == key then [headers[0].value] else []) + HeaderValues(headers[1..], key)
  }

  lemma {:induction false} HeaderValuesAppend(a: seq<Header>, b: seq<Header>, key: string)
    ensures HeaderValues(a + b, key) == HeaderValues(a, key) + HeaderValues(b, key)
  {
    if |a| == 0 {
      assert a + b == b;
    } else {
      var ab := a + b;
      assert ab[0] == a[0];
      assert ab[1..] == a[1..] + b;
      HeaderValuesAppend(a[1..], b, key);
      var h := if a[0].key == key then [a[0].value] else [];
      assert HeaderValues(ab, key) == h + HeaderValues(a[1..] + b, key);
      assert HeaderValues(a, key) == h + HeaderValues(a[1..], key);
    }
  }

  /** A parsed `url.URL`; only the part the client changes (`Path`) is
      distinguished from the rest. */
  datatype Url = Url(scheme: string, host: string, path: string)

  /** One part of a multipart/form-data body. */
  datatype Part =
    | FilePart(fieldName: string, fileName: string, content: seq<Byte>)
    | FieldPart(fieldName: string, value: string)

  datatype Body = NoBody | JsonBody(text: string) | FormBody(parts: seq<Part>)

  datatype Request = Request(verb: Method, url: Url, headers: seq<Header>, body: Body)

  /** A response: its status code and its whole body as text. */
  datatype Response = Response(statusCode: int, body: string)

  /** The `(*Output, error)` pair an operation returns. */
  datatype Reply<+O> = Reply(output: Option<O>, err: Option<Err>)

  /** The observable result of one operation: what it returned and the request
      it handed to the transport (`None` when it returned before dispatch), or
      a run-time panic. */
  datatype Call<+O> = Returned(sent: Option<Request>, reply: Reply<O>) | Panicked

  /** The libraries around the round trip: url.Parse, the failure (if any) of
      http.NewRequest for a URL, httpClient.Do and json.Decoder.Decode. */
  datatype Transport<O> = Transport(
    parseUrl: string -> Result<Url, ForeignError>,
    requestError: Url -> Option<ForeignError>,
    send: Request -> Result<Response, ForeignError>,
    decode: string -> Result<O, ForeignError>)

  /** `return nil, err` before anything was dispatched. */
  function Abort<O>(e: Err): (c: Call<O>)
    ensures c.Returned? && c.sent.None? && c.reply.output.None? && c.reply.err == Some(e)
  {
    Returned(None, Reply(None, Some(e)))
  }

  /** The `json.NewDecoder(resp.Body).Decode(ret)` branch: on failure
      `return nil, err`, otherwise the decoded output with `err`. */
  function DecodedWith<O>(decoded: Result<O, ForeignError>, err: Option<Err>): (r: Reply<O>)
    ensures decoded.Success? ==> r.output == Some(decoded.value) && r.err == err
    ensures decoded.Failure? ==> r.output.None? && r.err == Some(Foreign(decoded.error))
  {
    match decoded
    case Success(o) => Reply(Some(o), err)
    case Failure(e) => Reply(None, Some(Foreign(e)))
  }
}

=== FILE: images.dfy ===
/** The image-generation operation (api/v1_images_generations.go). */
module Images {
  import opened Prelude
  import opened Errors
  import opened Http
  import opened Client
  import Taxonomy

  const Path: string := "/v1/images/generations"

  datatype Input = Input(
    prompt: Option<string>,
    n: Option<int>,
    size: Option<string>,
    responseFormat: Option<string>,
    user: Option<string>)

  datatype Image = Image(url: string)

  datatype Output = Output(created: int, data: seq<Image>, error: Option<ApiError>)

  function BodyOnly(body: string): (o: Output)
    ensures o.error == Some(MessageOnly(body)) && o.data == [] && o.created == 0
  {
    Output(0, [], Some(MessageOnly(body)))
  }

  /** `validate`: only the prompt is required. */
  function Validate(input: Input): (r: Option<Err>)
    ensures r.None? <==> input.prompt.Some?
    ensures r.Some? ==> r.value == Text("no prompt")
  {
    if input.prompt.None? then Some(Text("no prompt")) else None
  }

  /** The status switch: a status other than 200 and 401 puts the raw body
      in the output's error record but returns a nil error. */
  function Classify(status: int, body: string, decoded: Result<Output, ForeignError>): (r: Reply<Output>)
    ensures r.err.None? <==> (status == StatusOK && decoded.Success?) || (status != StatusOK && status != StatusUnauthorized)
    ensures Is(r.err, Unauthorized) <==> status == StatusUnauthorized && decoded.Success?
    ensures !Is(r.err, Unknown) && !Is(r.err, BadGateway)
    ensures (status == StatusOK || status == StatusUnauthorized) ==>
              r.output == (if decoded.Success? then Some(decoded.value) else None)
    ensures status != StatusOK && status != StatusUnauthorized ==> r.output == Some(BodyOnly(body))
  {
    if status == StatusOK then DecodedWith(decoded, None)
    else if status == StatusUnauthorized then DecodedWith(decoded, Some(Bare(Unauthorized)))
    else Reply(Some(BodyOnly(body)), None)
  }

  const Policy: Taxonomy.Policy :=
    Taxonomy.Policy(keepsOkOutput := true, badGatewayBranch := false, unknownCarriesStatus := false, reportsUnexpected := false)

  lemma ClassifyFollowsPolicy(status: int, body: string, decoded: Result<Output, ForeignError>)
    ensures Classify(status, body, decoded) == Taxonomy.Expected(Policy, status, body, decoded, BodyOnly(body))
  {
  }

  /** `ImagesGenerationsV1`: validate, encode, resolve the URL, build the
      request, set the credentials (a failure aborts), dispatch, classify. */
  function ImagesGenerationsV1(api: Api, input: Input, encode: Input -> Result<string, ForeignError>,
                               t: Transport<Output>): (r: Call<Output>)
    ensures r.Returned?
    ensures Validate(input).Some? ==> r == Abort(Validate(input).value)
    ensures Validate(input).None? && encode(input).Failure? ==> r == Abort(Foreign(encode(input).error))
    ensures var u := Locate(api, t.parseUrl, Path);
            Validate(input).None? && encode(input).Success? && u.Failure? ==> r == Abort(Foreign(u.error))
    ensures var u := Locate(api, t.parseUrl, Path);
            Validate(input).None? && encode(input).Success? && u.Success? && t.requestError(u.value).Some? ==>
              r == Abort(Foreign(t.requestError(u.value).value))
    ensures var u := Locate(api, t.parseUrl, Path);
            Validate(input).None? && encode(input).Success? && u.Success? && t.requestError(u.value).None?
            && SetToken(api, []).err.Some? ==>
              r == Abort(SetToken(api, []).err.value)
    ensures var u := Locate(api, t.parseUrl, Path);
            r.sent.Some? <==>
              && Validate(input).None? && encode(input).Success? && u.Success? && t.requestError(u.value).None?
              && SetToken(api, []).err.None?
    ensures r.sent.Some? ==>
              var base := [Header(ContentTypeKey, JsonContentType)];
              && Validate(input).None?
              && encode(input).Success?
              && Locate(api, t.parseUrl, Path).Success?
              && r.sent.value == Request(Post, Locate(api, t.parseUrl, Path).value, SetToken(api, base).headers,
                                         JsonBody(encode(input).value))
              && HeaderValues(r.sent.value.headers, ContentTypeKey) == [JsonContentType]
              && HeaderValues(r.sent.value.headers, AuthorizationKey) == ["Bearer " + api.configuration.apiKey.value]
              && HeaderValues(r.sent.value.headers, OrganizationKey) == [api.configuration.organization.value]
    ensures r.sent.Some? && t.send(r.sent.value).Failure? ==>
              r.reply == Reply(None, Some(Foreign(t.send(r.sent.value).error)))
    ensures r.sent.Some? && t.send(r.sent.value).Success? ==>
              var resp := t.send(r.sent.value).value;
              r.reply == Classify(resp.statusCode, resp.body, t.decode(resp.body))
  {
    match Validate(input)
    case Some(e) => Abort(e)
    case None =>
      match encode(input)
      case Failure(e) => Abort(Foreign(e))
      case Success(json) =>
        match Locate(api, t.parseUrl, Path)
        case Failure(e) => Abort(Foreign(e))
        case Success(url) =>
          match t.requestError(url)
          case Some(e) => Abort(Foreign(e))
          case None =>
            var base := [Header(ContentTypeKey, JsonContentType)];
            assert base[1..] == [];
            SetTokenHeaders(api, base);
            var stamped := SetToken(api, base);
            match stamped.err
            case Some(e) => Abort(e)
            case None =>
              var req := Request(Post, url, stamped.headers, JsonBody(json));
              match t.send(req)
              case Failure(e) => Returned(Some(req), Reply(None, Some(Foreign(e))))
              case Success(resp) => Returned(Some(req), Classify(resp.statusCode, resp.body, t.decode(resp.body)))
  }

  /** A missing credential aborts with `setToken`'s error before dispatch. */
  lemma MissingCredentialAborts(api: Api, input: Input, encode: Input -> Result<string, ForeignError>, t: Transport<Output>)
    requires Validate(input).None? && encode(input).Success?
    requires Locate(api, t.parseUrl, Path).Success?
    requires t.requestError(Locate(api, t.parseUrl, Path).value).None?
    requires SetToken(api, []).err.Some?
    ensures ImagesGenerationsV1(api, input, encode, t) == Abort(SetToken(api, []).err.value)
  {
  }

  /** A server error, or any other status besides 200 and 401, reaches the
      caller as a success: the error value is nil and only the output's error
      record tells otherwise. */
  lemma ServerErrorLooksLikeSuccess(status: int, body: string, decoded: Result<Output, ForeignError>)
    requires status != StatusOK && status != StatusUnauthorized
    ensures Classify(status, body, decoded).err.None?
    ensures Classify(status, body, decoded).output.value.error == Some(MessageOnly(body))
  {
  }
}

=== FILE: list_file.dfy ===
/** The file-listing operation (api/v1_list_file.go). */
module ListFile {
  import opened Prelude
  import opened Errors
  import opened Http
  import opened Client
  import Taxonomy

  const Path: string := "/v1/files"

  /** `ListFileV1Input` has no fields. */
  datatype Input = Input

  datatype FileData = FileData(id: string, objectType: string, bytes: int, createdAt: int, filename: string, purpose: string)

  datatype Output = Output(data: seq<FileData>, objectType: Option<string>, error: Option<ApiError>)

  function BodyOnly(body: string): (o: Output)
    ensures o.error == Some(MessageOnly(body)) && o.data == [] && o.objectType.None?
  {
    Output([], None, Some(MessageOnly(body)))
  }

  /** The status switch: 502 wraps BadGateway, every other unexpected
      status wraps Unknown together with the status code. */
  function Classify(status: int, body: string, decoded: Result<Output, ForeignError>): (r: Reply<Output>)
    ensures r.err.None? <==> status == StatusOK && decoded.Success?
    ensures Is(r.err, Unauthorized) <==> status == StatusUnauthorized && decoded.Success?
    ensures Is(r.err, BadGateway) <==> status == StatusBadGateway
    ensures Is(r.err, Unknown) <==> status != StatusOK && status != StatusUnauthorized && status != StatusBadGateway
    ensures (status == StatusOK || status == StatusUnauthorized) ==>
              r.output == (if decoded.Success? then Some(decoded.value) else None)
    ensures status != StatusOK && status != StatusUnauthorized ==>
              r.output == Some(BodyOnly(body)) && Reports(r.err, body)
    ensures Is(r.err, Unknown) ==> r.err.value.context == StatusContext(status, body)
  {
    if status == StatusOK then DecodedWith(decoded, None)
    else if status == StatusUnauthorized then DecodedWith(decoded, Some(Bare(Unauthorized)))
    else if status == StatusBadGateway then
      Reply(Some(BodyOnly(body)), Some(Wrapped(MessageContext(body), BadGateway)))
    else
      Reply(Some(BodyOnly(body)), Some(Wrapped(StatusContext(status, body), Unknown)))
  }

  const Policy: Taxonomy.Policy :=
    Taxonomy.Policy(keepsOkOutput := true, badGatewayBranch := true, unknownCarriesStatus := true, reportsUnexpected := true)

  lemma ClassifyFollowsPolicy(status: int, body: string, decoded: Result<Output, ForeignError>)
    ensures Classify(status, body, decoded) == Taxonomy.Expected(Policy, status, body, decoded, BodyOnly(body))
  {
  }

  /** `ListFileV1`: resolve the URL, build a GET request, set the
      credentials ignoring the result, dispatch and classify. */
  function ListFileV1(api: Api, input: Input, t: Transport<Output>): (r: Call<Output>)
    ensures r.Returned?
    ensures var u := Locate(api, t.parseUrl, Path);
            u.Failure? ==> r == Abort(Foreign(u.error))
    ensures var u := Locate(api, t.parseUrl, Path);
            u.Success? && t.requestError(u.value).Some? ==> r == Abort(Foreign(t.requestError(u.value).value))
    ensures var u := Locate(api, t.parseUrl, Path);
            r.sent.Some? <==> u.Success? && t.requestError(u.value).None?
    ensures r.sent.Some? ==>
              && Locate(api, t.parseUrl, Path).Success?
              && r.sent.value == Request(Get, Locate(api, t.parseUrl, Path).value, SetToken(api, []).headers, NoBody)
              && HeaderValues(r.sent.value.headers, AuthorizationKey) == BearerFor(api.configuration)
              && HeaderValues(r.sent.value.headers, OrganizationKey) == OrganizationFor(api.configuration)
              && HeaderValues(r.sent.value.headers, ContentTypeKey) == []
    ensures r.sent.Some? && t.send(r.sent.value).Failure? ==>
              r.reply == Reply(None, Some(Foreign(t.send(r.sent.value).error)))
    ensures r.sent.Some? && t.send(r.sent.value).Success? ==>
              var resp := t.send(r.sent.value).value;
              r.reply == Classify(resp.statusCode, resp.body, t.decode(resp.body))
  {
    match Locate(api, t.parseUrl, Path)
    case Failure(e) => Abort(Foreign(e))
    case Success(url) =>
      match t.requestError(url)
      case Some(e) => Abort(Foreign(e))
      case None =>
        SetTokenHeaders(api, []);
        var req := Request(Get, url, SetToken(api, []).headers, NoBody);
        match t.send(req)
        case Failure(e) => Returned(Some(req), Reply(None, Some(Foreign(e))))
        case Success(resp) => Returned(Some(req), Classify(resp.statusCode, resp.body, t.decode(resp.body)))
  }
}

=== FILE: models.dfy ===
/** The model-listing operation (api/v1_models.go). */
module Models {
  import opened Prelude
  import opened Errors
  import opened Http
  import opened Client
  import Taxonomy

  const Path: string := "/v1/models"

  /** `ListModelsV1Input` has no fields. */
  datatype Input = Input

  datatype Permission = Permission(
    id: string, objectType: string, created: int,
    allowCreateEngine: bool, allowSampling: bool, allowLogprobs: bool, allowSearchIndices: bool,
    allowView: bool, allowFineTuning: bool, organization: string, group: Option<JsonAny>, isBlocking: bool)

  datatype ModelData = ModelData(
    id: string, objectType: string, created: int, ownedBy: string,
    permission: seq<Permission>, root: string, parent: Option<JsonAny>)

  datatype Output = Output(error: Option<ApiError>, objectType: string, data: seq<ModelData>)

  function BodyOnly(body: string): (o: Output)
    ensures o.error == Some(MessageOnly(body)) && o.data == [] && o.objectType == []
  {
    Output(Some(MessageOnly(body)), "", [])
  }

  /** The status switch: there is no 502 branch, and every status other than
      200 and 401 yields the bare Unknown sentinel. */
  function Classify(status: int, body: string, decoded: Result<Output, ForeignError>): (r: Reply<Output>)
    ensures r.err.None? <==> status == StatusOK && decoded.Success?
    ensures Is(r.err, Unauthorized) <==> status == StatusUnauthorized && decoded.Success?
    ensures !Is(r.err, BadGateway)
    ensures (status == StatusOK || status == StatusUnauthorized) ==>
              r.output == (if decoded.Success? then Some(decoded.value) else None)
    ensures status != StatusOK && status != StatusUnauthorized ==>
              r == Reply(Some(BodyOnly(body)), Some(Bare(Unknown)))
  {
    if status == StatusOK then DecodedWith(decoded, None)
    else if status == StatusUnauthorized then DecodedWith(decoded, Some(Bare(Unauthorized)))
    else Reply(Some(BodyOnly(body)), Some(Bare(Unknown)))
  }

  const Policy: Taxonomy.Policy :=
    Taxonomy.Policy(keepsOkOutput := true, badGatewayBranch := false, unknownCarriesStatus := false, reportsUnexpected := true)

  lemma ClassifyFollowsPolicy(status: int, body: string, decoded: Result<Output, ForeignError>)
    ensures Classify(status, body, decoded) == Taxonomy.Expected(Policy, status, body, decoded, BodyOnly(body))
  {
  }

  /** `ListModelsV1`: resolve the URL, build a GET request with no body, set
      the credentials ignoring the result, dispatch and classify. */
  function ListModelsV1(api: Api, input: Input, t: Transport<Output>): (r: Call<Output>)
    ensures r.Returned?
    ensures var u := Locate(api, t.parseUrl, Path);
            u.Failure? ==> r == Abort(Foreign(u.error))
    ensures var u := Locate(api, t.parseUrl, Path);
            u.Success? && t.requestError(u.value).Some? ==> r == Abort(Foreign(t.requestError(u.value).value))
    ensures var u := Locate(api, t.parseUrl, Path);
            r.sent.Some? <==> u.Success? && t.requestError(u.value).None?
    ensures r.sent.Some? ==>
              && Locate(api, t.parseUrl, Path).Success?
              && r.sent.value == Request(Get, Locate(api, t.parseUrl, Path).value, SetToken(api, []).headers, NoBody)
              && HeaderValues(r.sent.value.headers, AuthorizationKey) == BearerFor(api.configuration)
              && HeaderValues(r.sent.value.headers, OrganizationKey) == OrganizationFor(api.configuration)
              && HeaderValues(r.sent.value.headers, ContentTypeKey) == []
    ensures r.sent.Some? && t.send(r.sent.value).Failure? ==>
              r.reply == Reply(None, Some(Foreign(t.send(r.sent.value).error)))
    ensures r.sent.Some? && t.send(r.sent.value).Success? ==>
              var resp := t.send(r.sent.value).value;
              r.reply == Classify(resp.statusCode, resp.body, t.decode(resp.body))
  {
    match Locate(api, t.parseUrl, Path)
    case Failure(e) => Abort(Foreign(e))
    case Success(url) =>
      match t.requestError(url)
      case Some(e) => Abort(Foreign(e))
      case None =>
        SetTokenHeaders(api, []);
        var req := Request(Get, url, SetToken(api, []).headers, NoBody);
        match t.send(req)
        case Failure(e) => Returned(Some(req), Reply(None, Some(Foreign(e))))
        case Success(resp) => Returned(Some(req), Classify(resp.statusCode, resp.body, t.decode(resp.body)))
  }
}

=== FILE: prelude.dfy ===
/** Basic value types shared by every module: optional values (Go's nil-able
    pointers and slices), results of foreign library calls, and the opaque
    values the client only forwards without interpreting them. */
module Prelude {

  /** A Go pointer or interface value: `None` is nil. */
  datatype Option<+T> = None | Some(value: T)

  /** The outcome of a call into a library the client does not implement. */
  datatype Result<+T, +E> = Success(value: T) | Failure(error: E)

  /** An error returned by encoding/json, net/url, net/http or os. The client
      never inspects these, so only their identity is kept. */
  datatype ForeignError = ForeignError(id: nat)

  /** A Go float32 (temperature, top_p, penalties), kept as its IEEE bit
      pattern: the client forwards it and never computes with it. */
  datatype Float32 = Float32(bits: bv32)

  /** A Go value of static type `any` (logit_bias, function_call, param),
      kept as the JSON text it stands for. */
  datatype JsonAny = JsonAny(raw: string)

  type Byte = bv8
}

=== FILE: taxonomy.dfy ===
/** The status classification every operation performs after the round
    trip, stated once with the four points on which the operations disagree
    as parameters. Each operation's own `Classify` is proved equal to this
    reference under its own `Policy`, so the disagreements are explicit. */
module Taxonomy {
  import opened Prelude
  import opened Errors
  import opened Http

  datatype Policy = Policy(
    keepsOkOutput: bool,         // a decoded 200 body is returned to the caller
    badGatewayBranch: bool,      // 502 has a branch of its own (wrapping BadGateway)
    unknownCarriesStatus: bool,  // other statuses wrap Unknown with the status and body
    reportsUnexpected: bool)     // statuses other than 200 and 401 return an error at all

  /** The reply under `p` for a response with `status`, raw `body` and the
      outcome `decoded` of decoding that body; `bodyOnly` is the operation's
      output holding nothing but `Error.Message = body`. */
  function Expected<O>(p: Policy, status: int, body: string, decoded: Result<O, ForeignError>, bodyOnly: O): (r: Reply<O>)
    // a 200 or 401 whose body does not decode yields the decode error and no output
    ensures (status == StatusOK || status == StatusUnauthorized) && decoded.Failure? ==>
              r == Reply(None, Some(Foreign(decoded.error)))
    // the output is missing only for an undecodable 200/401 body or a dropped 200 output
    ensures r.output.None? <==>
              ((status == StatusOK || status == StatusUnauthorized) && decoded.Failure?)
              || (status == StatusOK && !p.keepsOkOutput)
    // the output of a 200 or 401 is the decoded body, of any other status the raw body
    ensures r.output.Some? && (status == StatusOK || status == StatusUnauthorized) ==> r.output == Some(decoded.value)
    ensures status != StatusOK && status != StatusUnauthorized ==> r.output == Some(bodyOnly)
    // which sentinel the error is, if any
    ensures Is(r.err, Unauthorized) <==> status == StatusUnauthorized && decoded.Success?
    ensures Is(r.err, BadGateway) <==>
              status == StatusBadGateway && p.badGatewayBranch && p.reportsUnexpected
    ensures Is(r.err, Unknown) <==>
              status != StatusOK && status != StatusUnauthorized && p.reportsUnexpected
              && !(status == StatusBadGateway && p.badGatewayBranch)
    ensures r.err.None? <==>
              (status == StatusOK && decoded.Success?)
              || (status != StatusOK && status != StatusUnauthorized && !p.reportsUnexpected)
  {
    if status == StatusOK then
      match decoded
      case Failure(e) => Reply(None, Some(Foreign(e)))
      case Success(o) => if p.keepsOkOutput then Reply(Some(o), None) else Reply(None, None)
    else if status == StatusUnauthorized then
      DecodedWith(decoded, Some(Bare(Unauthorized)))
    else if !p.reportsUnexpected then
      Reply(Some(bodyOnly), None)
    else if status == StatusBadGateway && p.badGatewayBranch then
      Reply(Some(bodyOnly), Some(Wrapped(MessageContext(body), BadGateway)))
    else if p.unknownCarriesStatus then
      Reply(Some(bodyOnly), Some(Wrapped(StatusContext(status, body), Unknown)))
    else
      Reply(Some(bodyOnly), Some(Bare(Unknown)))
  }

  /** Whatever the error, a raw body that reaches the caller is never lost:
      the error of a non-success status carries it or the output does. */
  ghost predicate CarriesBody<O>(r: Reply<O>, body: string, bodyOnly: O) {
    r.output == Some(bodyOnly)
    && (r.err.Some? && r.err.value.Wrapped? ==> Reports(r.err, body))
  }

  lemma UnexpectedStatusKeepsBody<O>(p: Policy, status: int, body: string, decoded: Result<O, ForeignError>, bodyOnly: O)
    requires status != StatusOK && status != StatusUnauthorized
    ensures CarriesBody(Expected(p, status, body, decoded, bodyOnly), body, bodyOnly)
  {
  }
}

=== FILE: transcriptions.dfy ===
/** The audio-transcription operation (api/v1_transcriptions.go): input
    validation, the multipart form it uploads, the status classification and
    the whole call. */
module Transcriptions {
  import opened Prelude
  import opened Errors
  import opened Http
  import opened Client
  import Taxonomy

  const Path: string := "/v1/audio/transcriptions"

  /** An open `*os.File`: its name and an identity; its content is read
      through `FormEnv.readFile`. */
  datatype FileHandle = FileHandle(name: string, descriptor: nat)

  datatype Input = Input(
    file: Option<FileHandle>,
    model: Option<string>,
    language: Option<string>,
    temperature: Option<Float32>,
    responseFormat: Option<string>,
    prompt: Option<string>)

  datatype Output = Output(text: string, error: Option<ApiError>)

  function BodyOnly(body: string): (o: Output)
    ensures o.error == Some(MessageOnly(body)) && o.text == []
  {
    Output("", Some(MessageOnly(body)))
  }

  /** `validate`: a file and a model are required, the file checked first. */
  function Validate(input: Input): (r: Option<Err>)
    ensures r.None? <==> input.file.Some? && input.model.Some?
    ensures input.file.None? ==> r == Some(Text("no file"))
    ensures input.file.Some? && input.model.None? ==> r == Some(Text("no models"))
  {
    if input.file.None? then Some(Text("no file"))
    else if input.model.None? then Some(Text("no models"))
    else None
  }

  /** What the multipart form is built with besides the input: reading the
      file, filepath.Base, fmt.Sprint of a float32, and the Content-Type the
      writer reports (it holds the writer's random boundary). */
  datatype FormEnv = FormEnv(
    readFile: FileHandle -> Result<seq<Byte>, ForeignError>,
    baseName: string -> string,
    formatFloat: Float32 -> string,
    contentType: string)

  /** `writeField`: a nil value writes nothing; a set one writes exactly one
      field named `fieldName` holding the rendered value. Writing into an
      in-memory buffer cannot fail, so the error result is always nil. */
  function WriteField<T>(fieldName: string, v: Option<T>, render: T -> string, parts: seq<Part>): (r: seq<Part>)
    ensures v.None? ==> r == parts
    ensures v.Some? ==> |r| == |parts| + 1 && r[..|parts|] == parts
    ensures v.Some? ==> r[|parts|] == FieldPart(fieldName, render(v.value))
  {
    match v
    case None => parts
    case Some(x) => parts + [FieldPart(fieldName, render(x))]
  }

  /** The form fields in the order they are written. */
  const FieldOrder: seq<string> := ["file", "model", "language", "temperature", "response_format", "prompt"]

  /** The rendered value of an optional field, `None` when it is not set. */
  function OptionalValue(input: Input, env: FormEnv, name: string): Option<string> {
    if name == "language" then input.language
    else if name == "temperature" then
      (match input.temperature case None => None case Some(f) => Some(env.formatFloat(f)))
    else if name == "response_format" then input.responseFormat
    else if name == "prompt" then input.prompt
    else None
  }

  /** The form carries field `name`: file and model always, an optional
      field only when it is set. */
  predicate Supplied(input: Input, env: FormEnv, name: string) {
    name == "file" || name == "model" || OptionalValue(input, env, name).Some?
  }

  /** `names` restricted to the fields the form carries: file and model
      always, the optional ones only when set. */
  function Selected(names: seq<string>, input: Input, env: FormEnv): (r: seq<string>)
    ensures forall n :: n in r <==> n in names && Supplied(input, env, n)
  {
    if |names| == 0 then []
    else
      Selected(names[..|names| - 1], input, env) + Flag(names[|names| - 1], Supplied(input, env, names[|names| - 1]))
  }

  function FieldNames(parts: seq<Part>): (r: seq<string>)
    ensures |r| == |parts|
    ensures forall i | 0 <= i < |parts| :: r[i] == parts[i].fieldName
  {
    seq(|parts|, i requires 0 <= i < |parts| => parts[i].fieldName)
  }

  function Identity(s: string): string { s }

  /** The multipart form of a validated input: the file part, the model,
      then each optional field that is set, in `FieldOrder`. Only reading
      the file can fail. */
  function BuildForm(input: Input, env: FormEnv): (r: Result<seq<Part>, Err>)
    requires input.file.Some? && input.model.Some?
    ensures env.readFile(input.file.value).Failure? ==> r == Failure(Foreign(env.readFile(input.file.value).error))
    ensures env.readFile(input.file.value).Success? ==> r.Success?
    ensures r.Success? ==> FieldNames(r.value) == Selected(FieldOrder, input, env)
    ensures r.Success? ==>
              && |r.value| >= 2
              && r.value[0] == FilePart("file", env.baseName(input.file.value.name), env.readFile(input.file.value).value)
              && r.value[1] == FieldPart("model", input.model.value)
    ensures r.Success? ==> OptionalPartsRendered(r.value, input, env)
  {
    match env.readFile(input.file.value)
    case Failure(e) => Failure(Foreign(e))
    case Success(content) =>
      FormPartsShape(input, env, content);
      Success(FormParts(input, env, content))
  }

  /** The writes of the form, in source order, once the file is read. */
  function FormParts(input: Input, env: FormEnv, content: seq<Byte>): seq<Part>
    requires input.file.Some? && input.model.Some?
  {
    var p0 := [FilePart("file", env.baseName(input.file.value.name), content), FieldPart("model", input.model.value)];
    var p1 := WriteField("language", input.language, Identity, p0);
    var p2 := WriteField("temperature", input.temperature, env.formatFloat, p1);
    var p3 := WriteField("response_format", input.responseFormat, Identity, p2);
    WriteField("prompt", input.prompt, Identity, p3)
  }

  /** Every optional part holds the rendered value of the field it names. */
  ghost predicate OptionalPartsRendered(parts: seq<Part>, input: Input, env: FormEnv) {
    forall i | 2 <= i < |parts| ::
      parts[i].FieldPart? && OptionalValue(input, env, parts[i].fieldName) == Some(parts[i].value)
  }

  lemma FormPartsShape(input: Input, env: FormEnv, content: seq<Byte>)
    requires input.file.Some? && input.model.Some?
    ensures |FormParts(input, env, content)| >= 2
    ensures FieldNames(FormParts(input, env, content)) == Selected(FieldOrder, input, env)
    ensures FormParts(input, env, content)[0] == FilePart("file", env.baseName(input.file.value.name), content)
    ensures FormParts(input, env, content)[1] == FieldPart("model", input.model.value)
    ensures OptionalPartsRendered(FormParts(input, env, content), input, env)
  {
    var p0 := [FilePart("file", env.baseName(input.file.value.name), content), FieldPart("model", input.model.value)];
    var p1 := WriteField("language", input.language, Identity, p0);
    var p2 := WriteField("temperature", input.temperature, env.formatFloat, p1);
    var p3 := WriteField("response_format", input.responseFormat, Identity, p2);
    var p4 := WriteField("prompt", input.prompt, Identity, p3);
    assert p4 == FormParts(input, env, content);
    SelectedFieldOrder(input, env);
    assert FieldNames(p0) == ["file", "model"];
    WriteFieldShape("language", input.language, Identity, p0, input, env);
    WriteFieldShape("temperature", input.temperature, env.formatFloat, p1, input, env);
    WriteFieldShape("response_format", input.responseFormat, Identity, p2, input, env);
    WriteFieldShape("prompt", input.prompt, Identity, p3, input, env);
  }

  /** One `writeField` step appends its name when the value is set, and
      keeps every optional part rendered when its own value renders as the
      field's value. */
  lemma WriteFieldShape<T>(fieldName: string, v: Option<T>, render: T -> string, parts: seq<Part>, input: Input, env: FormEnv)
    requires |parts| >= 2 && OptionalPartsRendered(parts, input, env)
    requires v.Some? ==> OptionalValue(input, env, fieldName) == Some(render(v.value))
    ensures |WriteField(fieldName, v, render, parts)| >= 2
    ensures WriteField(fieldName, v, render, parts)[..2] == parts[..2]
    ensures FieldNames(WriteField(fieldName, v, render, parts)) == FieldNames(parts) + Flag(fieldName, v.Some?)
    ensures OptionalPartsRendered(WriteField(fieldName, v, render, parts), input, env)
  {
    var r := WriteField(fieldName, v, render, parts);
    if v.Some? {
      assert r == parts + [FieldPart(fieldName, render(v.value))];
    }
  }

  function Flag(name: string, present: bool): seq<string> {
    if present then [name] else []
  }

  lemma SelectedFieldOrder(input: Input, env: FormEnv)
    ensures Selected(FieldOrder, input, env) ==
              ["file", "model"] + Flag("language", input.language.Some?) + Flag("temperature", input.temperature.Some?)
              + Flag("response_format", input.responseFormat.Some?) + Flag("prompt", input.prompt.Some?)
  {
    SuppliedFields(input, env);
    var s1 := [] + ["file"];
    var s2 := s1 + ["model"];
    var s3 := s2 + ["language"];
    var s4 := s3 + ["temperature"];
    var s5 := s4 + ["response_format"];
    var s6 := s5 + ["prompt"];
    assert s6 == FieldOrder;
    SelectedSnoc([], "file", input, env);
    SelectedSnoc(s1, "model", input, env);
    assert Selected(s2, input, env) == ["file", "model"];
    SelectedSnoc(s2, "language", input, env);
    SelectedSnoc(s3, "temperature", input, env);
    SelectedSnoc(s4, "response_format", input, env);
    SelectedSnoc(s5, "prompt", input, env);
  }

  lemma SuppliedFields(input: Input, env: FormEnv)
    ensures Supplied(input, env, "file") && Supplied(input, env, "model")
    ensures Supplied(input, env, "language") == input.language.Some?
    ensures Supplied(input, env, "temperature") == input.temperature.Some?
    ensures Supplied(input, env, "response_format") == input.responseFormat.Some?
    ensures Supplied(input, env, "prompt") == input.prompt.Some?
  {
  }

  lemma SelectedSnoc(names: seq<string>, name: string, input: Input, env: FormEnv)
    ensures Selected(names + [name], input, env) == Selected(names, input, env) + Flag(name, Supplied(input, env, name))
  {
    assert (names + [name])[..|names|] == names;
  }

  /** The status switch: a 200 returns neither the decoded output nor an
      error, so the transcript is dropped; there is no 502 branch. */
  function Classify(status: int, body: string, decoded: Result<Output, ForeignError>): (r: Reply<Output>)
    ensures r.err.None? <==> status == StatusOK && decoded.Success?
    ensures status == StatusOK ==> r.output.None?
    ensures Is(r.err, Unauthorized) <==> status == StatusUnauthorized && decoded.Success?
    ensures !Is(r.err, BadGateway)
    ensures status == StatusUnauthorized ==>
              r.output == (if decoded.Success? then Some(decoded.value) else None)
    ensures status != StatusOK && status != StatusUnauthorized ==>
              r == Reply(Some(BodyOnly(body)), Some(Bare(Unknown)))
  {
    if status == StatusOK then
      match decoded
      case Failure(e) => Reply(None, Some(Foreign(e)))
      case Success(_) => Reply(None, None)
    else if status == StatusUnauthorized then DecodedWith(decoded, Some(Bare(Unauthorized)))
    else Reply(Some(BodyOnly(body)), Some(Bare(Unknown)))
  }

  const Policy: Taxonomy.Policy :=
    Taxonomy.Policy(keepsOkOutput := false, badGatewayBranch := false, unknownCarriesStatus := false, reportsUnexpected := true)

  lemma ClassifyFollowsPolicy(status: int, body: string, decoded: Result<Output, ForeignError>)
    ensures Classify(status, body, decoded) == Taxonomy.Expected(Policy, status, body, decoded, BodyOnly(body))
  {
  }

  /** `AudioTranscriptionsV1`: validate, build the form, resolve the URL,
      build the request, set the credentials (a failure aborts), dispatch
      and classify. */
  function AudioTranscriptionsV1(api: Api, input: Input, env: FormEnv, t: Transport<Output>): (r: Call<Output>)
    ensures r.Returned?
    ensures Validate(input).Some? ==> r == Abort(Validate(input).value)
    ensures Validate(input).None? && BuildForm(input, env).Failure? ==> r == Abort(BuildForm(input, env).error)
    ensures var u := Locate(api, t.parseUrl, Path);
            Validate(input).None? && BuildForm(input, env).Success? && u.Failure? ==> r == Abort(Foreign(u.error))
    ensures var u := Locate(api, t.parseUrl, Path);
            Validate(input).None? && BuildForm(input, env).Success? && u.Success? && t.requestError(u.value).Some? ==>
              r == Abort(Foreign(t.requestError(u.value).value))
    ensures var u := Locate(api, t.parseUrl, Path);
            Validate(input).None? && BuildForm(input, env).Success? && u.Success? && t.requestError(u.value).None?
            && SetToken(api, []).err.Some? ==>
              r == Abort(SetToken(api, []).err.value)
    ensures var u := Locate(api, t.parseUrl, Path);
            r.sent.Some? <==>
              && Validate(input).None? && BuildForm(input, env).Success? && u.Success? && t.requestError(u.value).None?
              && SetToken(api, []).err.None?
    ensures r.sent.Some? ==>
              var base := [Header(ContentTypeKey, env.contentType)];
              && Validate(input).None?
              && BuildForm(input, env).Success?
              && Locate(api, t.parseUrl, Path).Success?
              && r.sent.value == Request(Post, Locate(api, t.parseUrl, Path).value, SetToken(api, base).headers,
                                         FormBody(BuildForm(input, env).value))
              && HeaderValues(r.sent.value.headers, ContentTypeKey) == [env.contentType]
              && HeaderValues(r.sent.value.headers, AuthorizationKey) == ["Bearer " + api.configuration.apiKey.value]
              && HeaderValues(r.sent.value.headers, OrganizationKey) == [api.configuration.organization.value]
    ensures r.sent.Some? && t.send(r.sent.value).Failure? ==>
              r.reply == Reply(None, Some(Foreign(t.send(r.sent.value).error)))
    ensures r.sent.Some? && t.send(r.sent.value).Success? ==>
              var resp := t.send(r.sent.value).value;
              r.reply == Classify(resp.statusCode, resp.body, t.decode(resp.body))
  {
    match Validate(input)
    case Some(e) => Abort(e)
    case None =>
      match BuildForm(input, env)
      case Failure(e) => Abort(e)
      case Success(parts) =>
        match Locate(api, t.parseUrl, Path)
        case Failure(e) => Abort(Foreign(e))
        case Success(url) =>
          match t.requestError(url)
          case Some(e) => Abort(Foreign(e))
          case None =>
            var base := [Header(ContentTypeKey, env.contentType)];
            assert base[1..] == [];
            SetTokenHeaders(api, base);
            var stamped := SetToken(api, base);
            match stamped.err
            case Some(e) => Abort(e)
            case None =>
              var req := Request(Post, url, stamped.headers, FormBody(parts));
              match t.send(req)
              case Failure(e) => Returned(Some(req), Reply(None, Some(Foreign(e))))
              case Success(resp) => Returned(Some(req), Classify(resp.statusCode, resp.body, t.decode(resp.body)))
  }

  /** A missing credential aborts with `setToken`'s error before dispatch. */
  lemma MissingCredentialAborts(api: Api, input: Input, env: FormEnv, t: Transport<Output>)
    requires Validate(input).None? && BuildForm(input, env).Success?
    requires Locate(api, t.parseUrl, Path).Success?
    requires t.requestError(Locate(api, t.parseUrl, Path).value).None?
    requires SetToken(api, []).err.Some?
    ensures AudioTranscriptionsV1(api, input, env, t) == Abort(SetToken(api, []).err.value)
  {
  }

  /** A successful transcription reaches the caller as `(nil, nil)`. */
  lemma TranscriptDropped(api: Api, input: Input, env: FormEnv, t: Transport<Output>, b: string)
    requires AudioTranscriptionsV1(api, input, env, t).sent.Some?
    requires t.send(AudioTranscriptionsV1(api, input, env, t).sent.value) == Success(Response(StatusOK, b))
    requires t.decode(b).Success?
    ensures AudioTranscriptionsV1(api, input, env, t).reply == Reply(None, None)
  {
  }
}
